=== FILE: README.md ===
# Hybrid ranker predictor, modelled in Dafny

This project models `HybridRankerPredictor.__call__` of DeepPavlov's ranking
models. The predictor picks a response for each item of a batch. For each item it:

1. Pairs each candidate with the score at the same position. A later
   duplicate overwrites an earlier one (`cand2pred`).
2. Optionally keeps only the candidates whose external score is strictly
   above `ext_score_trashhold`. The pairing of candidates with external
   scores stops at the shorter of the two rows.
3. Removes duplicates with `list(set(...))`.
4. Sorts the pool by score, highest first.
5. Returns one of two replies:
   - in top-N mode, the first `topn` ranks with their scores (Python slice
     semantics, so a negative `topn` counts from the end);
   - in sampling mode, one candidate drawn from the first `sample_size` ranks.

The first item that raises stops the whole call.

Files:

- `wrappers.dfy`: `Option` and `Result`.
- `ranking.dfy` (module `Ranking`): duplicate-free sequences, descending
  order by a score map, a first-occurrence `Dedup`, and an insertion sort.
  It also holds the facts that make every admissible ranking agree on its
  scores.
- `hybrid_ranker.dfy` (module `HybridRanker`): the configuration, the
  replies and errors, each step of one item, the item function
  `SelectItem`, and the batch methods `Collect` and `Select`.
- `properties.dfy` (module `HybridRankerProperties`): properties that hold
  for every order `set` may produce and every tie order `argsort` may
  choose, plus three worked examples computed from the code.

Python's `list(set(...))` has no specified order, and `np.argsort` has no
specified tie order. The model computes one concrete admissible choice
(`Dedup` followed by `SortDescending`). The predicates `IsPoolOf` and
`IsRankingOf` describe every admissible choice, and the lemmas show that
the returned scores, membership and bounds do not depend on which one Python
makes.

Behaviour worth knowing:

- An empty pool in top-N mode gives an empty reply, not an error.
- In sampling mode, a pool smaller than `sample_size` is not clipped.
  `np.random.choice` receives a weight vector of length `sample_size` and a
  shorter slice, and it raises ValueError. The same happens when
  `sample_size < 1`. This is `SampleSizeMismatch`.
- There is no shape check on the batches. The only preds error is the
  IndexError raised when an item's score row is shorter than its candidate
  row. Extra scores are ignored. A missing external-score row raises
  IndexError only while filtering is active.
- The lookup `cand2pred[c]` never raises KeyError (`PoolHasScores`).

## Model

| member | source | states |
|---|---|---|
| HybridRanker.BuildScoreMap | deeppavlov/models/ranking/hybrid_ranker_predictor.py:57 | the map's keys are exactly the item's candidates, and each candidate maps to the score at its last occurrence (a later duplicate wins) |
| HybridRanker.AboveThreshold | deeppavlov/models/ranking/hybrid_ranker_predictor.py:62-66 | the filtered list is no longer than either row, and every position inside the zip whose external score is strictly above the threshold contributes its candidate |
| HybridRanker.AboveThresholdSound | deeppavlov/models/ranking/hybrid_ranker_predictor.py:62-66 | conversely, every candidate the filter keeps comes from a position inside the zip whose external score is strictly above the threshold |
| HybridRanker.Survivors | deeppavlov/models/ranking/hybrid_ranker_predictor.py:59-70 | an IndexError happens exactly when filtering is active and the item has no external-score row; otherwise the surviving candidates are exactly the eligible ones (those passing the filter, or all candidates when it is off) |
| HybridRanker.TopN | deeppavlov/models/ranking/hybrid_ranker_predictor.py:97-98 | the reply is the ranking's prefix of Python-slice length, its scores are each candidate's own score and non-increasing, and no lower rank beats the last returned score |
| HybridRanker.Sample | deeppavlov/models/ranking/hybrid_ranker_predictor.py:81-95 | sampling fails exactly when `sample_size < 1` or the pool is shorter than `sample_size`; otherwise the chosen candidate is among the first `sample_size` ranks, carries its own score, and scores at least as high as every lower rank |
| HybridRanker.Rank | deeppavlov/models/ranking/hybrid_ranker_predictor.py:68-74 | the ranked pool is descending by score, duplicate-free, holds exactly the distinct survivors, and has one entry per distinct survivor |
| HybridRanker.Choose | deeppavlov/models/ranking/hybrid_ranker_predictor.py:68-98 | given the map and survivors, only sampling can fail, and only when `sample_size` is outside 1..number of distinct survivors; the reply's mode follows `return_topn`; every returned candidate is a survivor with its own score; top-N replies are duplicate-free and non-increasing |
| HybridRanker.SelectItem | deeppavlov/models/ranking/hybrid_ranker_predictor.py:57-98 | the exact condition for each of the three exceptions of one item; otherwise a reply in the configured mode whose candidates are eligible, duplicate-free, carry their `cand2pred` scores, and number `topn` in slice semantics over the eligible set |
| HybridRanker.ItemOutcomeIsLocal | deeppavlov/models/ranking/hybrid_ranker_predictor.py:56-98 | two batches that agree on item `i`'s candidate row, score row, external-score row (or its absence) and draw give item `i` the same outcome for the same `ext_score_flag`, whatever the other items hold |
| HybridRanker.Collect | deeppavlov/models/ranking/hybrid_ranker_predictor.py:56-101 | the loop succeeds exactly when every item succeeds, returning every reply in item order; otherwise it reports the first failing item and its exception, with every earlier item successful |
| HybridRanker.Select | deeppavlov/models/ranking/hybrid_ranker_predictor.py:41-101 | a successful call has one reply per item, equal to that item's own outcome; a failed call names the first item that raised and what it raised |
| Ranking.Dedup | deeppavlov/models/ranking/hybrid_ranker_predictor.py:68-70 | deduplication yields a duplicate-free list with exactly the input's values and no more entries than the input |
| Ranking.DistinctCount | deeppavlov/models/ranking/hybrid_ranker_predictor.py:68-70 | a duplicate-free pool has one entry per distinct candidate |
| Ranking.PoolsArePermutations | deeppavlov/models/ranking/hybrid_ranker_predictor.py:68-70 | any two orders `list(set(kept))` may produce are permutations of each other, with one entry per distinct value |
| Ranking.Insert | deeppavlov/models/ranking/hybrid_ranker_predictor.py:74 | inserting into a descending ranking adds exactly that candidate and keeps the ranking descending |
| Ranking.SortDescending | deeppavlov/models/ranking/hybrid_ranker_predictor.py:74 | the sort returns a permutation of the pool that is descending by score, as `np.flip(np.argsort(scores))` does |
| Ranking.PermutedScores | deeppavlov/models/ranking/hybrid_ranker_predictor.py:72-74 | permuting candidates permutes their score array |
| Ranking.SortedIsUnique | deeppavlov/models/ranking/hybrid_ranker_predictor.py:74 | a multiset of scores has exactly one non-increasing arrangement |
| Ranking.RankingScoresAgree | deeppavlov/models/ranking/hybrid_ranker_predictor.py:68-74 | two descending rankings of permuted pools have the same score at every rank, however ties are broken |
| HybridRankerProperties.FilteredPoolPassesThreshold | deeppavlov/models/ranking/hybrid_ranker_predictor.py:62-68 | with filtering on, a candidate is in any admissible pool exactly when some position inside the zip holding it has an external score strictly above the threshold |
| HybridRankerProperties.PoolHasScores | deeppavlov/models/ranking/hybrid_ranker_predictor.py:72 | every member of any admissible pool has a `cand2pred` entry, so line 72 never raises KeyError, and the pool has one entry per eligible candidate |
| HybridRankerProperties.TopNLeavesNoBetter | deeppavlov/models/ranking/hybrid_ranker_predictor.py:97-98 | for any admissible ranking, a pool member left out of the top-N reply scores no higher than the lowest returned score |
| HybridRankerProperties.SampleBeatsTheRest | deeppavlov/models/ranking/hybrid_ranker_predictor.py:87-95 | for any admissible ranking, the sampled candidate belongs to the pool and scores at least as high as every pool member outside the first `sample_size` ranks |
| HybridRankerProperties.TopNScoresIndependentOfOrder | deeppavlov/models/ranking/hybrid_ranker_predictor.py:68-98 | the top-N scores are the same whatever order `set` produced and however `argsort` broke ties |
| HybridRankerProperties.SelectItemAgreesWithAnyRanking | deeppavlov/models/ranking/hybrid_ranker_predictor.py:57-98 | one item's top-N scores equal those of any admissible pool and ranking of its survivors |
| HybridRankerProperties.SelectItemTopNIsBest | deeppavlov/models/ranking/hybrid_ranker_predictor.py:57-98 | in top-N mode, every eligible candidate missing from an item's reply scores no higher than the lowest returned score |
| HybridRankerProperties.SelectItemSampleAgreesWithAnyRanking | deeppavlov/models/ranking/hybrid_ranker_predictor.py:68-95 | in sampling mode, for any admissible pool and ranking of the item's survivors with at least `sample_size` entries, the item succeeds, the draw lies inside the first `sample_size` ranks, and the returned score is the score at rank `draw`, so it does not depend on the order `set` produced or on tie breaking |
| HybridRankerProperties.SelectItemSampleIsBest | deeppavlov/models/ranking/hybrid_ranker_predictor.py:68-95 | in sampling mode, when any admissible ranking has at least `sample_size` entries, the item succeeds, that ranking holds exactly the eligible candidates, and none of them outside its first `sample_size` ranks scores higher than the chosen one |
| HybridRankerProperties.ExampleDefaultsTooFewCandidates | deeppavlov/models/ranking/hybrid_ranker_predictor.py:26-39 | with the constructor defaults (sampling, `sample_size` 14) and filtering off (`ext_score_flag` false), an item with three distinct candidates raises instead of sampling from a clipped slice |
| HybridRankerProperties.ExampleTopTwo | deeppavlov/models/ranking/hybrid_ranker_predictor.py:57-98 | with filtering off (`ext_score_flag` false), candidates a, b, c scored 0.2, 0.9, 0.5 with `topn` 2 give b, c with 0.9, 0.5 |
| HybridRankerProperties.ExampleLastDuplicateWins | deeppavlov/models/ranking/hybrid_ranker_predictor.py:57-98 | with filtering off (`ext_score_flag` false), candidates a, a, b scored 0.1, 0.8, 0.3 with `topn` 1 give a with 0.8, because the later duplicate's score wins |

## Left out

- The computation of `ext_score_flag` (lines 48-53) is an input here (`extActive`). The source compares the contents of each candidate row with the external-score row beside it, element by element, so the flag depends on the values and on numpy's comparison rules. When `ext_score_batch` is empty, `all([])` makes it true, and the first item then raises IndexError (`ExtScoresIndexError`). When the rows have more than one element, `all` asks for the truth value of a multi-element array and raises ValueError before the loop starts; that failure is not modelled.
- The sampling weights `exp(-i / lambda_coeff)` (lines 82-84) and `lambda_coeff` itself are floating point and are not modelled. The random generator is replaced by a caller-supplied rank `draw` below `sample_size`, so the model proves which candidates can be chosen, not how likely each is.
- HybridRanker.ItemOutcomeIsLocal: holds for one fixed `ext_score_flag`. In the source that flag is computed over every item's candidate and external-score rows together, so an item's outcome can change when another item's rows change (whether the item is filtered at all). The model takes the flag as an input and does not state this coupling.
- The worked examples pass `ext_score_flag` false. A call without `ext_score_batch` makes the flag true, and its first item raises IndexError instead.
- HybridRanker.Sample: does not model the probability of each rank, because the weights and the generator are left out.
- HybridRanker.Sample: assumes `lambda_coeff` is positive and finite. With `lambda_coeff` equal to 0, line 83 makes every weight NaN and `np.random.choice` raises ValueError even when `1 <= sample_size <=` the pool size, where the model returns a reply; that failure is not modelled.
- Logging (lines 54, 60-61, 67), the component registry, and the `Component` base class (lines 18-19, 24) have no effect on the result.
- Floating-point scores are modelled as `real`. NaN, and numpy's coercion of mixed candidate types to one array dtype, are not modelled.
- The two parallel output lists `responses_batch` and `responses_preds` are one `Reply` per item. A top-N reply's candidates are a numpy array in the source and a sequence here.
- The concrete orders of `set` iteration and of `argsort` ties are not reproduced. `Dedup` keeps first occurrences and `SortDescending` is an insertion sort; the lemmas over `IsPoolOf` and `IsRankingOf` cover every order Python could produce.
- Rebinding the loop variable `i` at line 82 does not affect the loop, because `range` drives it. It is not modelled.
- Batch rows are assumed to be sequences. Ragged or non-list inputs that numpy would reject at lines 48-53 are not modelled.

=== FILE: hybrid_ranker.dfy ===
/** The selection performed by `HybridRankerPredictor.__call__`. For every
    batch item it builds a candidate-to-score map in which a later duplicate
    wins, optionally keeps only the candidates whose external score is strictly
    above a threshold, deduplicates the survivors into a pool, sorts the pool by
    score (highest first), and then either returns the first `topn` ranks with
    their scores or draws one candidate from the first `sample_size` ranks.

    Candidates are any type with equality (Python's hash/equality); scores,
    external scores and the threshold are only compared, so they are `real`.
    The random draw is the caller-supplied rank `draw`. */
module HybridRanker {
  import opened Wrappers
  import opened Ranking

  /** The options fixed when the predictor is constructed. `lambda_coeff`
      enters only the floating-point sampling weights and is not modelled; it
      is taken to be positive and finite (zero makes every weight NaN and the
      draw fail). */
  datatype Config = Config(
    sampleSize: int,
    returnTopN: bool,
    topN: int,
    extScoreThreshold: real)

  /** The constructor's default options. */
  const Defaults := Config(14, false, 10, 0.0)

  /** What one batch item contributes to `(responses_batch, responses_preds)`:
      one sampled candidate with its score, or the top-N candidates with theirs. */
  datatype Reply<C> =
    | Chosen(candidate: C, score: real)
    | Top(candidates: seq<C>, scores: seq<real>)

  /** The exceptions the selection can raise for one item. */
  datatype Error =
    | PredsIndexError      // `preds_batch[i][j]` does not exist (IndexError)
    | ExtScoresIndexError  // `ext_score_batch[i]` does not exist (IndexError)
    | SampleSizeMismatch   // `np.random.choice` rejects the slice and its weights (ValueError)

  /** A failed call: the first item that raised, and what it raised. */
  datatype BatchError = BatchError(item: nat, cause: Error)

  // ---------------------------------------------------------------------------
  // Step 1: the candidate-to-score map

  /** Position `j` holds the last occurrence of its value in `s`. */
  predicate LastOccurrence<C(==)>(s: seq<C>, j: int)
    requires 0 <= j < |s|
  {
    forall k :: j < k < |s| ==> s[k] != s[j]
  }

  /** `cand2pred`: pairs every candidate with the score at the same position,
      a later pairing overwriting an earlier one. */
  function BuildScoreMap<C(==)>(cands: seq<C>, preds: seq<real>): (m: map<C, real>)
    requires |cands| <= |preds|
    ensures m.Keys == Elements(cands)
    ensures forall j :: 0 <= j < |cands| && LastOccurrence(cands, j) ==> m[cands[j]] == preds[j]
    decreases |cands|
  {
    if |cands| == 0 then map[]
    else
      var n := |cands| - 1;
      var front := cands[..n];
      var rest := BuildScoreMap(front, preds);
      assert cands == front + [cands[n]];
      assert Elements(cands) == Elements(front) + {cands[n]};
      assert rest[cands[n] := preds[n]].Keys == rest.Keys + {cands[n]};
      forall j | 0 <= j < n && LastOccurrence(cands, j)
        ensures rest[cands[n] := preds[n]][cands[j]] == preds[j]
      {
        assert cands[n] != cands[j] && front[j] == cands[j];
        assert LastOccurrence(front, j);
      }
      rest[cands[n] := preds[n]]
  }

  // ---------------------------------------------------------------------------
  // Step 2: the external-score filter

  /** Position `j` lies inside `zip(cands, ext)` and its external score is
      strictly above `threshold`. */
  predicate PassesAt<C>(cands: seq<C>, ext: seq<real>, threshold: real, j: int) {
    0 <= j < |cands| && j < |ext| && ext[j] > threshold
  }

  /** The list comprehension over `zip(cands, ext)` keeping the candidates
      whose external score is strictly above `threshold`, in order. */
  function AboveThreshold<C>(cands: seq<C>, ext: seq<real>, threshold: real): (kept: seq<C>)
    ensures |kept| <= |cands| && |kept| <= |ext|
    ensures forall j :: PassesAt(cands, ext, threshold, j) ==> cands[j] in kept
    decreases |cands|
  {
    if |cands| == 0 || |ext| == 0 then []
    else
      var rest := AboveThreshold(cands[1..], ext[1..], threshold);
      assert forall j :: 0 < j && PassesAt(cands, ext, threshold, j) ==> PassesAt(cands[1..], ext[1..], threshold, j - 1);
      if ext[0] > threshold then [cands[0]] + rest else rest
  }

  /** Every entry of `kept` is the candidate of some position of `cands` whose
      external score is strictly above `threshold`. */
  ghost predicate FromPassing<C>(cands: seq<C>, ext: seq<real>, threshold: real, kept: seq<C>) {
    forall k :: 0 <= k < |kept| ==>
      exists j :: PassesAt(cands, ext, threshold, j) && cands[j] == kept[k]
  }

  /** Everything the filter keeps comes from a position whose external score
      is strictly above the threshold. */
  lemma {:induction false} AboveThresholdSound<C>(cands: seq<C>, ext: seq<real>, threshold: real)
    ensures FromPassing(cands, ext, threshold, AboveThreshold(cands, ext, threshold))
    decreases |cands|
  {
    if |cands| > 0 && |ext| > 0 {
      var rest := AboveThreshold(cands[1..], ext[1..], threshold);
      AboveThresholdSound(cands[1..], ext[1..], threshold);
      assert FromPassing(cands[1..], ext[1..], threshold, rest);
      var kept := AboveThreshold(cands, ext, threshold);
      assert kept == if ext[0] > threshold then [cands[0]] + rest else rest;
      forall k | 0 <= k < |kept|
        ensures exists j :: PassesAt(cands, ext, threshold, j) && cands[j] == kept[k]
      {
        if ext[0] > threshold && k == 0 {
          assert PassesAt(cands, ext, threshold, 0);
        } else {
          var k' := if ext[0] > threshold then k - 1 else k;
          assert 0 <= k' < |rest| && kept[k] == rest[k'];
          var j :| PassesAt(cands[1..], ext[1..], threshold, j) && cands[1..][j] == rest[k'];
          assert cands[1..][j] == cands[j + 1];
          assert PassesAt(cands, ext, threshold, j + 1);
        }
      }
    }
  }

  /** The candidates an item offers to its pool: those passing the filter when
      it is active, every candidate otherwise. */
  ghost function Eligible<C>(cands: seq<C>, ext: seq<real>, extActive: bool, threshold: real): set<C> {
    if extActive then set j | 0 <= j < |cands| && PassesAt(cands, ext, threshold, j) :: cands[j]
    else Elements(cands)
  }

  /** `candidates_list` before deduplication: the filtered list when the
      external score is active (which needs the item's external-score row),
      the item's whole candidate row otherwise. */
  function Survivors<C(==)>(cands: seq<C>, ext: Option<seq<real>>, extActive: bool, threshold: real)
    : (r: Result<seq<C>, Error>)
    ensures r.Err? <==> extActive && ext.None?
    ensures r.Err? ==> r.error == ExtScoresIndexError
    ensures r.Ok? ==> Elements(r.value) == Eligible(cands, ext.GetOr([]), extActive, threshold)
  {
    if !extActive then Ok(cands)
    else if ext.None? then Err(ExtScoresIndexError)
    else
      var kept := AboveThreshold(cands, ext.value, threshold);
      AboveThresholdSound(cands, ext.value, threshold);
      assert Elements(kept) == Eligible(cands, ext.value, extActive, threshold) by {
        forall x | x in Elements(kept)
          ensures x in Eligible(cands, ext.value, extActive, threshold)
        {
          var k :| 0 <= k < |kept| && kept[k] == x;
          assert FromPassing(cands, ext.value, threshold, kept);
          var j :| PassesAt(cands, ext.value, threshold, j) && cands[j] == kept[k];
          assert 0 <= j < |cands|;
        }
      }
      Ok(kept)
  }

  // ---------------------------------------------------------------------------
  // Step 5: top-N and sampling

  /** Length of the Python slice `s[:n]` of a sequence of length `len`: a
      negative `n` drops that many entries from the end. */
  function SliceLength(n: int, len: nat): (k: nat)
    ensures k <= len
  {
    if n >= 0 then (if n < len then n else len)
    else if len + n > 0 then len + n
    else 0
  }

  /** Top-N mode: the first `n` ranks (clipped to the pool) with their scores. */
  function TopN<C(==)>(ranked: seq<C>, m: map<C, real>, n: int): (r: Reply<C>)
    requires Descending(ranked, m)
    ensures r.Top?
    ensures |r.candidates| == |r.scores| == SliceLength(n, |ranked|)
    ensures r.candidates == ranked[..|r.candidates|]
    ensures forall k :: 0 <= k < |r.candidates| ==> r.scores[k] == m[r.candidates[k]]
    ensures NonIncreasing(r.scores)
    ensures forall j :: 0 < |r.candidates| <= j < |ranked| ==> m[ranked[j]] <= r.scores[|r.candidates| - 1]
  {
    var k := SliceLength(n, |ranked|);
    Top(ranked[..k], ScoresOf(ranked, m)[..k])
  }

  /** What the random generator may return: a position in the first
      `sampleSize` ranks whenever that range is non-empty. */
  predicate ValidDraw(sampleSize: int, draw: nat) {
    sampleSize < 1 || draw < sampleSize
  }

  /** Sampling mode: `np.random.choice` over the first `sampleSize` ranks with a
      weight vector of length `sampleSize`; it fails unless the slice is
      non-empty and as long as the weight vector. `draw` is the position the
      generator picks. */
  function Sample<C(==)>(ranked: seq<C>, m: map<C, real>, sampleSize: int, draw: nat)
    : (r: Result<Reply<C>, Error>)
    requires Descending(ranked, m)
    requires ValidDraw(sampleSize, draw)
    ensures r.Err? <==> sampleSize < 1 || |ranked| < sampleSize
    ensures r.Err? ==> r.error == SampleSizeMismatch
    ensures r.Ok? ==> r.value.Chosen? && r.value.candidate in ranked[..sampleSize]
    ensures r.Ok? ==> r.value.score == m[r.value.candidate]
    ensures r.Ok? ==> forall j :: sampleSize <= j < |ranked| ==> m[ranked[j]] <= r.value.score
  {
    if 1 <= sampleSize <= |ranked| then
      Ok(Chosen(ranked[draw], m[ranked[draw]]))
    else
      Err(SampleSizeMismatch)
  }

  // ---------------------------------------------------------------------------
  // One batch item

  /** Steps 3 and 4: `list(set(kept))` (in the first-occurrence order of
      `Dedup`) sorted by score, highest first. */
  function Rank<C(==)>(kept: seq<C>, m: map<C, real>): (ranked: seq<C>)
    requires Elements(kept) <= m.Keys
    ensures Descending(ranked, m)
    ensures NoDuplicates(ranked)
    ensures Elements(ranked) == Elements(kept)
    ensures |ranked| == |Elements(kept)|
  {
    var pool := Dedup(kept);
    DistinctCount(pool);
    var ranked := SortDescending(pool, m);
    PermutationKeepsNoDuplicates(pool, ranked);
    PermutationKeepsElements(pool, ranked);
    ranked
  }

  /** The reply of one item whose score map and survivors are known. */
  function Choose<C(==)>(cfg: Config, m: map<C, real>, kept: seq<C>, draw: nat): (r: Result<Reply<C>, Error>)
    requires ValidDraw(cfg.sampleSize, draw)
    requires Elements(kept) <= m.Keys
    ensures r.Err? <==> !cfg.returnTopN && !(1 <= cfg.sampleSize <= |Elements(kept)|)
    ensures r.Err? ==> r.error == SampleSizeMismatch
    ensures r.Ok? ==> (r.value.Top? <==> cfg.returnTopN)
    ensures r.Ok? && r.value.Chosen? ==>
              r.value.candidate in kept && r.value.score == m[r.value.candidate]
    ensures r.Ok? && r.value.Top? ==>
              && |r.value.candidates| == |r.value.scores| == SliceLength(cfg.topN, |Elements(kept)|)
              && NoDuplicates(r.value.candidates)
              && NonIncreasing(r.value.scores)
              && forall k :: 0 <= k < |r.value.candidates| ==>
                   r.value.candidates[k] in kept && r.value.scores[k] == m[r.value.candidates[k]]
  {
    var ranked := Rank(kept, m);
    if cfg.returnTopN then
      var t := TopN(ranked, m, cfg.topN);
      assert forall k :: 0 <= k < |t.candidates| ==> t.candidates[k] in Elements(ranked);
      Ok(t)
    else
      var c := Sample(ranked, m, cfg.sampleSize, draw);
      assert c.Ok? ==> c.value.candidate in ranked && c.value.candidate in Elements(ranked);
      c
  }

  /** One iteration of the loop of `__call__`, for candidate row `cands`,
      score row `preds`, external-score row `ext` (absent when the batch has
      no such row) and generator draw `draw`. */
  function SelectItem<C(==)>(cfg: Config, extActive: bool, cands: seq<C>, preds: seq<real>,
                             ext: Option<seq<real>>, draw: nat): (r: Result<Reply<C>, Error>)
    requires ValidDraw(cfg.sampleSize, draw)
    ensures r == Err(PredsIndexError) <==> |preds| < |cands|
    ensures r == Err(ExtScoresIndexError) <==> |cands| <= |preds| && extActive && ext.None?
    ensures r == Err(SampleSizeMismatch) <==>
              && |cands| <= |preds| && !(extActive && ext.None?) && !cfg.returnTopN
              && !(1 <= cfg.sampleSize <= |Eligible(cands, ext.GetOr([]), extActive, cfg.extScoreThreshold)|)
    ensures r.Ok? ==> (r.value.Top? <==> cfg.returnTopN)
    ensures r.Ok? && r.value.Chosen? ==>
              && r.value.candidate in Eligible(cands, ext.GetOr([]), extActive, cfg.extScoreThreshold)
              && r.value.score == BuildScoreMap(cands, preds)[r.value.candidate]
    ensures r.Ok? && r.value.Top? ==>
              && |r.value.candidates| == |r.value.scores|
              && |r.value.candidates| == SliceLength(cfg.topN, |Eligible(cands, ext.GetOr([]), extActive, cfg.extScoreThreshold)|)
              && NoDuplicates(r.value.candidates)
              && NonIncreasing(r.value.scores)
              && forall k :: 0 <= k < |r.value.candidates| ==>
                   && r.value.candidates[k] in Eligible(cands, ext.GetOr([]), extActive, cfg.extScoreThreshold)
                   && r.value.scores[k] == BuildScoreMap(cands, preds)[r.value.candidates[k]]
  {
    if |preds| < |cands| then Err(PredsIndexError)
    else
      var m := BuildScoreMap(cands, preds);
      var kept :- Survivors(cands, ext, extActive, cfg.extScoreThreshold);
      Choose(cfg, m, kept, draw)
  }

  // ---------------------------------------------------------------------------
  // The batch loop

  /** The score row of item `i`. A missing row behaves like an empty one: the
      `cand2pred` comprehension indexes it only when the candidate row is
      non-empty, and then raises IndexError either way. */
  function PredsRow(predsBatch: seq<seq<real>>, i: nat): seq<real> {
    if i < |predsBatch| then predsBatch[i] else []
  }

  /** The external-score row of item `i`, if the batch has one. */
  function ExtRow(extBatch: seq<seq<real>>, i: nat): Option<seq<real>> {
    if i < |extBatch| then Some(extBatch[i]) else None
  }

  /** What each item of the batch yields on its own: for a given
      `ext_score_flag`, item `i` depends on the `i`-th rows and the `i`-th draw
      only. */
  function ItemOutcomes<C(==)>(cfg: Config, extActive: bool, candidatesBatch: seq<seq<C>>,
                               predsBatch: seq<seq<real>>, extBatch: seq<seq<real>>, draws: seq<nat>)
    : (o: seq<Result<Reply<C>, Error>>)
    requires |draws| == |candidatesBatch|
    requires forall i :: 0 <= i < |draws| ==> ValidDraw(cfg.sampleSize, draws[i])
    ensures |o| == |candidatesBatch|
    ensures forall i :: 0 <= i < |o| ==>
              o[i] == SelectItem(cfg, extActive, candidatesBatch[i], PredsRow(predsBatch, i),
                                 ExtRow(extBatch, i), draws[i])
  {
    seq(|candidatesBatch|, i requires 0 <= i < |candidatesBatch| =>
      SelectItem(cfg, extActive, candidatesBatch[i], PredsRow(predsBatch, i), ExtRow(extBatch, i), draws[i]))
  }

  /** For one `ext_score_flag`, item `i` depends on the `i`-th rows and the
      `i`-th draw only: two batches that agree there yield the same outcome
      for item `i`, whatever the other items hold. The flag itself is computed
      from the whole batch, which this lemma does not cover. */
  lemma ItemOutcomeIsLocal<C>(cfg: Config, extActive: bool,
                              cb1: seq<seq<C>>, pb1: seq<seq<real>>, eb1: seq<seq<real>>, d1: seq<nat>,
                              cb2: seq<seq<C>>, pb2: seq<seq<real>>, eb2: seq<seq<real>>, d2: seq<nat>,
                              i: nat)
    requires |d1| == |cb1| && forall k :: 0 <= k < |d1| ==> ValidDraw(cfg.sampleSize, d1[k])
    requires |d2| == |cb2| && forall k :: 0 <= k < |d2| ==> ValidDraw(cfg.sampleSize, d2[k])
    requires i < |cb1| && i < |cb2|
    requires cb1[i] == cb2[i] && d1[i] == d2[i]
    requires PredsRow(pb1, i) == PredsRow(pb2, i) && ExtRow(eb1, i) == ExtRow(eb2, i)
    ensures ItemOutcomes(cfg, extActive, cb1, pb1, eb1, d1)[i] == ItemOutcomes(cfg, extActive, cb2, pb2, eb2, d2)[i]
  {
  }

  /** The loop of `__call__` once each item's outcome is known: every reply
      in item order, or the first item that raised. Items after the first
      failure are never looked at, as in the Python loop. */
  method Collect<C>(outcomes: seq<Result<Reply<C>, Error>>) returns (r: Result<seq<Reply<C>>, BatchError>)
    ensures r.Ok? <==> forall i :: 0 <= i < |outcomes| ==> outcomes[i].Ok?
    ensures r.Ok? ==> |r.value| == |outcomes|
    ensures r.Ok? ==> forall i :: 0 <= i < |outcomes| ==> outcomes[i] == Ok(r.value[i])
    ensures r.Err? ==> r.error.item < |outcomes| && outcomes[r.error.item] == Err(r.error.cause)
    ensures r.Err? ==> forall i :: 0 <= i < r.error.item ==> outcomes[i].Ok?
  {
    var replies: seq<Reply<C>> := [];
    var i := 0;
    while i < |outcomes|
      invariant 0 <= i <= |outcomes|
      invariant |replies| == i
      invariant forall k :: 0 <= k < i ==> outcomes[k] == Ok(replies[k])
    {
      if outcomes[i].Err? {
        return Err(BatchError(i, outcomes[i].error));
      }
      replies := replies + [outcomes[i].value];
      i := i + 1;
    }
    return Ok(replies);
  }

  /** `__call__`: one reply per item, or the first item's exception.
      `extActive` is `ext_score_flag`, taken as an input. The source computes
      it by comparing the contents of each candidate row with the external-score
      row beside it, element by element; an empty `ext_score_batch` makes it
      true, and rows of more than one element make it raise ValueError before
      the loop starts. `draws[i]` is the generator's pick for item `i`. */
  method Select<C(==)>(cfg: Config, extActive: bool, candidatesBatch: seq<seq<C>>,
                       predsBatch: seq<seq<real>>, extBatch: seq<seq<real>>, draws: seq<nat>)
    returns (r: Result<seq<Reply<C>>, BatchError>)
    requires |draws| == |candidatesBatch|
    requires forall i :: 0 <= i < |draws| ==> ValidDraw(cfg.sampleSize, draws[i])
    ensures r.Ok? ==> |r.value| == |candidatesBatch|
    ensures r.Ok? ==> forall i :: 0 <= i < |candidatesBatch| ==>
              ItemOutcomes(cfg, extActive, candidatesBatch, predsBatch, extBatch, draws)[i] == Ok(r.value[i])
    ensures r.Err? ==> r.error.item < |candidatesBatch|
    ensures r.Err? ==>
              ItemOutcomes(cfg, extActive, candidatesBatch, predsBatch, extBatch, draws)[r.error.item]
              == Err(r.error.cause)
    ensures r.Err? ==> forall i :: 0 <= i < r.error.item ==>
              ItemOutcomes(cfg, extActive, candidatesBatch, predsBatch, extBatch, draws)[i].Ok?
  {
    var outcomes := ItemOutcomes(cfg, extActive, candidatesBatch, predsBatch, extBatch, draws);
    r := Collect(outcomes);
  }
}

=== FILE: properties.dfy ===
/** Properties of the selector that hold whatever order `list(set(...))`
    produces and however `np.argsort` breaks ties, stated for every admissible
    pool (`IsPoolOf`) and every admissible ranking (`IsRankingOf`), together with
    three worked examples computed from the code. */
module HybridRankerProperties {
  import opened Wrappers
  import opened Ranking
  import opened HybridRanker

  /** One item, step by step: the map, the survivors, `Dedup`, the sort, and
      the mode's reply. */
  lemma SelectItemSteps<C>(cfg: Config, extActive: bool, cands: seq<C>, preds: seq<real>,
                           ext: Option<seq<real>>, draw: nat)
    requires ValidDraw(cfg.sampleSize, draw)
    requires |cands| <= |preds|
    requires Survivors(cands, ext, extActive, cfg.extScoreThreshold).Ok?
    ensures var m := BuildScoreMap(cands, preds);
            var kept := Survivors(cands, ext, extActive, cfg.extScoreThreshold).value;
            && Elements(kept) <= m.Keys
            && Scored(Dedup(kept), m)
            && var ranked := SortDescending(Dedup(kept), m);
               SelectItem(cfg, extActive, cands, preds, ext, draw)
               == if cfg.returnTopN then Ok(TopN(ranked, m, cfg.topN))
                  else Sample(ranked, m, cfg.sampleSize, draw)
  {
    var m := BuildScoreMap(cands, preds);
    var kept := Survivors(cands, ext, extActive, cfg.extScoreThreshold).value;
    PoolHasScores(cfg, extActive, cands, preds, ext, Dedup(kept));
    assert Elements(kept) <= m.Keys;
    assert SelectItem(cfg, extActive, cands, preds, ext, draw) == Choose(cfg, m, kept, draw);
  }

  /** With filtering on, every member of any pool built from the filtered list
      sits at a position whose external score is strictly above the threshold,
      and every such position's candidate is in the pool. */
  lemma FilteredPoolPassesThreshold<C>(cands: seq<C>, ext: seq<real>, threshold: real, pool: seq<C>)
    requires IsPoolOf(pool, AboveThreshold(cands, ext, threshold))
    ensures forall k :: 0 <= k < |pool| ==>
              exists j :: PassesAt(cands, ext, threshold, j) && cands[j] == pool[k]
    ensures forall j :: PassesAt(cands, ext, threshold, j) ==> cands[j] in pool
  {
    var kept := AboveThreshold(cands, ext, threshold);
    AboveThresholdSound(cands, ext, threshold);
    forall k | 0 <= k < |pool|
      ensures exists j :: PassesAt(cands, ext, threshold, j) && cands[j] == pool[k]
    {
      assert pool[k] in Elements(pool);
      var i :| 0 <= i < |kept| && kept[i] == pool[k];
      assert FromPassing(cands, ext, threshold, kept);
      var j :| PassesAt(cands, ext, threshold, j) && cands[j] == kept[i];
    }
    forall j | PassesAt(cands, ext, threshold, j)
      ensures cands[j] in pool
    {
      assert cands[j] in Elements(kept);
    }
  }

  /** Every member of any pool has an entry in the score map, so the lookup
      `cand2pred[c]` never raises KeyError. */
  lemma PoolHasScores<C>(cfg: Config, extActive: bool, cands: seq<C>, preds: seq<real>,
                             ext: Option<seq<real>>, pool: seq<C>)
    requires |cands| <= |preds|
    requires Survivors(cands, ext, extActive, cfg.extScoreThreshold).Ok?
    requires IsPoolOf(pool, Survivors(cands, ext, extActive, cfg.extScoreThreshold).value)
    ensures Scored(pool, BuildScoreMap(cands, preds))
    ensures |pool| == |Eligible(cands, ext.GetOr([]), extActive, cfg.extScoreThreshold)|
  {
    var kept := Survivors(cands, ext, extActive, cfg.extScoreThreshold).value;
    var m := BuildScoreMap(cands, preds);
    if extActive {
      var k := AboveThreshold(cands, ext.value, cfg.extScoreThreshold);
      AboveThresholdSound(cands, ext.value, cfg.extScoreThreshold);
      assert kept == k;
      forall x | x in Elements(k)
        ensures x in Elements(cands)
      {
        var i :| 0 <= i < |k| && k[i] == x;
        var j :| PassesAt(cands, ext.value, cfg.extScoreThreshold, j) && cands[j] == k[i];
      }
    }
    assert Elements(kept) <= Elements(cands);
    forall i | 0 <= i < |pool|
      ensures pool[i] in m
    {
      assert pool[i] in Elements(pool);
    }
    DistinctCount(pool);
  }

  /** For any ranking of any pool, a candidate of the pool that top-N mode
      leaves out scores no higher than the lowest returned score. */
  lemma TopNLeavesNoBetter<C>(pool: seq<C>, ranked: seq<C>, m: map<C, real>, n: int)
    requires IsRankingOf(ranked, pool, m)
    ensures var t := TopN(ranked, m, n);
            forall x :: x in pool && x !in t.candidates && |t.candidates| > 0 ==>
              x in m && m[x] <= t.scores[|t.candidates| - 1]
  {
    var t := TopN(ranked, m, n);
    PrefixMembers(ranked, |t.candidates|);
    forall x | x in pool && x !in t.candidates && |t.candidates| > 0
      ensures x in m && m[x] <= t.scores[|t.candidates| - 1]
    {
      assert x in multiset(ranked);
      var j :| 0 <= j < |ranked| && ranked[j] == x;
    }
  }

  /** For any ranking of any pool, a sampled candidate belongs to the pool and
      scores at least as high as every pool member outside the first
      `sampleSize` ranks. */
  lemma SampleBeatsTheRest<C>(pool: seq<C>, ranked: seq<C>, m: map<C, real>, sampleSize: int, draw: nat)
    requires IsRankingOf(ranked, pool, m)
    requires ValidDraw(sampleSize, draw)
    ensures var s := Sample(ranked, m, sampleSize, draw);
            s.Ok? ==> s.value.candidate in pool &&
                      forall x :: x in pool && x !in ranked[..sampleSize] ==> x in m && m[x] <= s.value.score
  {
    var s := Sample(ranked, m, sampleSize, draw);
    if s.Ok? {
      assert s.value.candidate in multiset(ranked);
      PrefixMembers(ranked, sampleSize);
      forall x | x in pool && x !in ranked[..sampleSize]
        ensures x in m && m[x] <= s.value.score
      {
        assert x in multiset(ranked);
        var j :| 0 <= j < |ranked| && ranked[j] == x;
      }
    }
  }

  /** The scores top-N mode returns do not depend on the order the pool came
      out of `set` in, nor on how ties were broken when sorting. */
  lemma TopNScoresIndependentOfOrder<C>(kept: seq<C>, p1: seq<C>, p2: seq<C>,
                                            r1: seq<C>, r2: seq<C>, m: map<C, real>, n: int)
    requires IsPoolOf(p1, kept) && IsPoolOf(p2, kept)
    requires IsRankingOf(r1, p1, m) && IsRankingOf(r2, p2, m)
    ensures TopN(r1, m, n).scores == TopN(r2, m, n).scores
  {
    PoolsArePermutations(p1, p2, kept);
    RankingScoresAgree(r1, r2, m);
    var k := SliceLength(n, |r1|);
    assert TopN(r1, m, n).scores == ScoresOf(r1, m)[..k];
    assert TopN(r2, m, n).scores == ScoresOf(r2, m)[..k];
  }

  /** The reply of one item in top-N mode carries exactly the scores any
      admissible pool and ranking of that item's survivors would give. */
  lemma SelectItemAgreesWithAnyRanking<C>(cfg: Config, extActive: bool, cands: seq<C>, preds: seq<real>,
                                              ext: Option<seq<real>>, draw: nat, pool: seq<C>, ranked: seq<C>)
    requires ValidDraw(cfg.sampleSize, draw)
    requires cfg.returnTopN && |cands| <= |preds|
    requires Survivors(cands, ext, extActive, cfg.extScoreThreshold).Ok?
    requires IsPoolOf(pool, Survivors(cands, ext, extActive, cfg.extScoreThreshold).value)
    requires IsRankingOf(ranked, pool, BuildScoreMap(cands, preds))
    ensures SelectItem(cfg, extActive, cands, preds, ext, draw).Ok?
    ensures SelectItem(cfg, extActive, cands, preds, ext, draw).value.scores
            == TopN(ranked, BuildScoreMap(cands, preds), cfg.topN).scores
  {
    var m := BuildScoreMap(cands, preds);
    var kept := Survivors(cands, ext, extActive, cfg.extScoreThreshold).value;
    SelectItemSteps(cfg, extActive, cands, preds, ext, draw);
    var own := Dedup(kept);
    var ownRanked := SortDescending(own, m);
    TopNScoresIndependentOfOrder(kept, own, pool, ownRanked, ranked, m, cfg.topN);
  }

  /** In top-N mode every eligible candidate left out of an item's reply scores
      no higher than the lowest score in the reply. */
  lemma SelectItemTopNIsBest<C>(cfg: Config, extActive: bool, cands: seq<C>, preds: seq<real>,
                                    ext: Option<seq<real>>, draw: nat)
    requires ValidDraw(cfg.sampleSize, draw)
    requires cfg.returnTopN && |cands| <= |preds|
    requires SelectItem(cfg, extActive, cands, preds, ext, draw).Ok?
    ensures var t := SelectItem(cfg, extActive, cands, preds, ext, draw).value;
            forall x :: x in Eligible(cands, ext.GetOr([]), extActive, cfg.extScoreThreshold)
                        && x !in t.candidates && |t.candidates| > 0 ==>
              BuildScoreMap(cands, preds)[x] <= t.scores[|t.candidates| - 1]
  {
    var m := BuildScoreMap(cands, preds);
    SelectItemSteps(cfg, extActive, cands, preds, ext, draw);
    var kept := Survivors(cands, ext, extActive, cfg.extScoreThreshold).value;
    var pool := Dedup(kept);
    var ranked := SortDescending(pool, m);
    TopNLeavesNoBetter(pool, ranked, m, cfg.topN);
    forall x | x in Eligible(cands, ext.GetOr([]), extActive, cfg.extScoreThreshold)
      ensures x in pool
    {
      assert x in Elements(pool);
    }
  }

  /** In sampling mode, when any admissible ranking of the item's survivors
      has at least `sample_size` entries, the item succeeds and its reply
      carries the score at rank `draw` of that ranking: which order `set`
      produced and how ties were broken do not change the score. */
  lemma SelectItemSampleAgreesWithAnyRanking<C>(cfg: Config, extActive: bool, cands: seq<C>, preds: seq<real>,
                                                ext: Option<seq<real>>, draw: nat, pool: seq<C>, ranked: seq<C>)
    requires ValidDraw(cfg.sampleSize, draw)
    requires !cfg.returnTopN && |cands| <= |preds|
    requires Survivors(cands, ext, extActive, cfg.extScoreThreshold).Ok?
    requires IsPoolOf(pool, Survivors(cands, ext, extActive, cfg.extScoreThreshold).value)
    requires IsRankingOf(ranked, pool, BuildScoreMap(cands, preds))
    requires 1 <= cfg.sampleSize <= |ranked|
    ensures SelectItem(cfg, extActive, cands, preds, ext, draw).Ok?
    ensures draw < cfg.sampleSize
    ensures SelectItem(cfg, extActive, cands, preds, ext, draw).value.score
            == BuildScoreMap(cands, preds)[ranked[draw]]
  {
    var m := BuildScoreMap(cands, preds);
    var kept := Survivors(cands, ext, extActive, cfg.extScoreThreshold).value;
    SelectItemSteps(cfg, extActive, cands, preds, ext, draw);
    var own := Dedup(kept);
    var ownRanked := SortDescending(own, m);
    PoolsArePermutations(own, pool, kept);
    RankingScoresAgree(ownRanked, ranked, m);
    assert ScoresOf(ownRanked, m)[draw] == ScoresOf(ranked, m)[draw];
  }

  /** In sampling mode any admissible ranking holds exactly the eligible
      candidates, and none of them outside its first `sample_size` ranks scores
      higher than the chosen one. */
  lemma SelectItemSampleIsBest<C>(cfg: Config, extActive: bool, cands: seq<C>, preds: seq<real>,
                                  ext: Option<seq<real>>, draw: nat, pool: seq<C>, ranked: seq<C>)
    requires ValidDraw(cfg.sampleSize, draw)
    requires !cfg.returnTopN && |cands| <= |preds|
    requires Survivors(cands, ext, extActive, cfg.extScoreThreshold).Ok?
    requires IsPoolOf(pool, Survivors(cands, ext, extActive, cfg.extScoreThreshold).value)
    requires IsRankingOf(ranked, pool, BuildScoreMap(cands, preds))
    requires 1 <= cfg.sampleSize <= |ranked|
    ensures SelectItem(cfg, extActive, cands, preds, ext, draw).Ok?
    ensures Elements(ranked) == Eligible(cands, ext.GetOr([]), extActive, cfg.extScoreThreshold)
    ensures forall j :: cfg.sampleSize <= j < |ranked| ==>
              BuildScoreMap(cands, preds)[ranked[j]] <= SelectItem(cfg, extActive, cands, preds, ext, draw).value.score
  {
    var m := BuildScoreMap(cands, preds);
    var kept := Survivors(cands, ext, extActive, cfg.extScoreThreshold).value;
    SelectItemSampleAgreesWithAnyRanking(cfg, extActive, cands, preds, ext, draw, pool, ranked);
    PermutationKeepsElements(pool, ranked);
    assert Elements(kept) == Elements(pool);
  }

  /** The score maps of the two top-N worked examples. */
  lemma ExampleScoreMaps()
    ensures BuildScoreMap(['a', 'b', 'c'], [0.2, 0.9, 0.5]) == map['a' := 0.2, 'b' := 0.9, 'c' := 0.5]
    ensures BuildScoreMap(['a', 'a', 'b'], [0.1, 0.8, 0.3]) == map['a' := 0.8, 'b' := 0.3]
  {
    assert ['a', 'b', 'c'][..2] == ['a', 'b'] && ['a', 'b'][..1] == ['a'] && ['a'][..0] == [];
    assert ['a', 'a', 'b'][..2] == ['a', 'a'] && ['a', 'a'][..1] == ['a'];
  }

  /** Two distinct candidates are both kept, in order. */
  lemma ExamplePoolPair()
    ensures Dedup(['a', 'b']) == ['a', 'b']
  {
    assert ['a', 'b'][..1] == ['a'] && ['a'][..0] == [];
    assert Dedup(['a']) == ['a'];
  }

  /** The pool of the first top-N worked example. */
  lemma ExamplePoolTopTwo()
    ensures Dedup(['a', 'b', 'c']) == ['a', 'b', 'c']
  {
    assert ['a', 'b', 'c'][..2] == ['a', 'b'];
    ExamplePoolPair();
  }

  /** The pool of the second top-N worked example. */
  lemma ExamplePoolLastDuplicate()
    ensures Dedup(['a', 'a', 'b']) == ['a', 'b']
  {
    assert ['a', 'a', 'b'][..2] == ['a', 'a'] && ['a', 'a'][..1] == ['a'] && ['a'][..0] == [];
    assert Dedup(['a']) == ['a'];
    assert Dedup(['a', 'a']) == ['a'];
  }

  /** Inserting the lowest-scored candidate of the first top-N worked example. */
  lemma ExampleInsertLowest()
    ensures Insert('a', ['b', 'c'], map['a' := 0.2, 'b' := 0.9, 'c' := 0.5]) == ['b', 'c', 'a']
  {
    var m := map['a' := 0.2, 'b' := 0.9, 'c' := 0.5];
    assert ['b', 'c'][1..] == ['c'] && ['c'][1..] == [];
    assert Insert('a', [], m) == ['a'];
    assert Insert('a', ['c'], m) == ['c', 'a'];
  }

  /** The ranking of the first top-N worked example. */
  lemma ExampleRankingTopTwo()
    ensures SortDescending(['a', 'b', 'c'], map['a' := 0.2, 'b' := 0.9, 'c' := 0.5]) == ['b', 'c', 'a']
  {
    var m := map['a' := 0.2, 'b' := 0.9, 'c' := 0.5];
    assert ['a', 'b', 'c'][1..] == ['b', 'c'] && ['b', 'c'][1..] == ['c'] && ['c'][1..] == [];
    assert SortDescending(['c'], m) == ['c'];
    assert SortDescending(['b', 'c'], m) == ['b', 'c'];
    ExampleInsertLowest();
  }

  /** The ranking of the second top-N worked example. */
  lemma ExampleRankingLastDuplicate()
    ensures SortDescending(['a', 'b'], map['a' := 0.8, 'b' := 0.3]) == ['a', 'b']
  {
    var m := map['a' := 0.8, 'b' := 0.3];
    assert ['a', 'b'][1..] == ['b'] && ['b'][1..] == [];
    assert SortDescending(['b'], m) == ['b'];
    assert Insert('a', ['b'], m) == ['a', 'b'];
  }

  /** The replies of the two top-N worked examples. */
  lemma ExampleReplies()
    ensures TopN(['b', 'c', 'a'], map['a' := 0.2, 'b' := 0.9, 'c' := 0.5], 2) == Top(['b', 'c'], [0.9, 0.5])
    ensures TopN(['a', 'b'], map['a' := 0.8, 'b' := 0.3], 1) == Top(['a'], [0.8])
  {
    assert ['b', 'c', 'a'][..2] == ['b', 'c'];
    assert ['a', 'b'][..1] == ['a'];
  }

  /** With filtering off (`ext_score_flag` false), candidates 'a', 'b', 'c'
      scored 0.2, 0.9, 0.5 with `topn` 2 give ['b', 'c'] with [0.9, 0.5]. */
  lemma ExampleTopTwo()
    ensures SelectItem(Config(14, true, 2, 0.0), false, ['a', 'b', 'c'], [0.2, 0.9, 0.5], None, 0)
            == Ok(Top(['b', 'c'], [0.9, 0.5]))
  {
    ExampleScoreMaps();
    ExamplePoolTopTwo();
    ExampleRankingTopTwo();
    ExampleReplies();
    SelectItemSteps(Config(14, true, 2, 0.0), false, ['a', 'b', 'c'], [0.2, 0.9, 0.5], None, 0);
  }

  /** With filtering off (`ext_score_flag` false), candidates 'a', 'a', 'b'
      scored 0.1, 0.8, 0.3: the later 'a' wins, so `topn` 1 gives ['a'] with
      [0.8]. */
  lemma ExampleLastDuplicateWins()
    ensures SelectItem(Config(14, true, 1, 0.0), false, ['a', 'a', 'b'], [0.1, 0.8, 0.3], None, 0)
            == Ok(Top(['a'], [0.8]))
  {
    ExampleScoreMaps();
    ExamplePoolLastDuplicate();
    ExampleRankingLastDuplicate();
    ExampleReplies();
    SelectItemSteps(Config(14, true, 1, 0.0), false, ['a', 'a', 'b'], [0.1, 0.8, 0.3], None, 0);
  }

  /** With the default options (sampling from the top 14 ranks) and filtering
      off (`ext_score_flag` false), an item with only three distinct candidates
      fails: the slice is not clipped to the
      pool, so `np.random.choice` rejects it. */
  lemma ExampleDefaultsTooFewCandidates()
    ensures SelectItem(Defaults, false, ['a', 'b', 'c'], [0.2, 0.9, 0.5], None, 0)
            == Err(SampleSizeMismatch)
  {
    assert NoDuplicates(['a', 'b', 'c']);
    DistinctCount(['a', 'b', 'c']);
  }
}

=== FILE: ranking.dfy ===
/** Vocabulary for ranking candidates by a score map: the elements of a
    sequence, duplicate-free sequences, descending order by score, a
    first-occurrence deduplication and a descending insertion sort, with the
    facts that make any two admissible rankings agree on their scores. */
module Ranking {

  /** The set of values occurring in `s`. */
  function Elements<C(==)>(s: seq<C>): set<C> {
    set x | x in s
  }

  /** No value occurs twice in `s`. */
  predicate NoDuplicates<C(==)>(s: seq<C>) {
    forall i, j :: 0 <= i < j < |s| ==> s[i] != s[j]
  }

  /** `pool` is one admissible value of Python's `list(set(kept))`: every value
      of `kept` exactly once, in any order. */
  ghost predicate IsPoolOf<C>(pool: seq<C>, kept: seq<C>) {
    NoDuplicates(pool) && Elements(pool) == Elements(kept)
  }

  /** Every entry of `r` has a score in `m`. */
  predicate Scored<C(==)>(r: seq<C>, m: map<C, real>) {
    forall i :: 0 <= i < |r| ==> r[i] in m
  }

  /** `r` is ordered by score, highest first; ties may appear in any order. */
  predicate Descending<C(==)>(r: seq<C>, m: map<C, real>) {
    Scored(r, m) && forall i, j :: 0 <= i < j < |r| ==> m[r[i]] >= m[r[j]]
  }

  /** `ranked` is one admissible value of sorting `pool` by score, descending
      (`np.flip(np.argsort(scores))`, whose tie order is unspecified). */
  ghost predicate IsRankingOf<C>(ranked: seq<C>, pool: seq<C>, m: map<C, real>) {
    multiset(ranked) == multiset(pool) && Descending(ranked, m)
  }

  predicate NonIncreasing(s: seq<real>) {
    forall i, j :: 0 <= i < j < |s| ==> s[i] >= s[j]
  }

  /** The scores of `r`, position by position. */
  function ScoresOf<C(==)>(r: seq<C>, m: map<C, real>): seq<real>
    requires Scored(r, m)
  {
    seq(|r|, i requires 0 <= i < |r| => m[r[i]])
  }

  /** Deduplication keeping the first occurrence of every value: one concrete
      choice among the orders `list(set(s))` may produce. */
  function Dedup<C(==)>(s: seq<C>): (r: seq<C>)
    ensures NoDuplicates(r)
    ensures Elements(r) == Elements(s)
    ensures |r| <= |s|
  {
    if |s| == 0 then []
    else
      var front := s[..|s| - 1];
      var x := s[|s| - 1];
      var r := Dedup(front);
      assert s == front + [x];
      assert Elements(s) == Elements(front) + {x};
      if x in r then r
      else
        assert Elements(r + [x]) == Elements(r) + {x};
        r + [x]
  }

  /** A duplicate-free sequence has as many entries as distinct values. */
  lemma {:induction false} DistinctCount<C>(s: seq<C>)
    requires NoDuplicates(s)
    ensures |Elements(s)| == |s|
  {
    if |s| > 0 {
      var front := s[..|s| - 1];
      var x := s[|s| - 1];
      assert s == front + [x];
      assert NoDuplicates(front);
      DistinctCount(front);
      assert x !in Elements(front);
      assert Elements(s) == Elements(front) + {x};
    }
  }

  /** In a duplicate-free sequence every value has multiplicity at most one. */
  lemma {:induction false} NoDuplicatesMultiplicity<C>(s: seq<C>, x: C)
    requires NoDuplicates(s)
    ensures multiset(s)[x] == if x in s then 1 else 0
  {
    if |s| > 0 {
      var front := s[..|s| - 1];
      assert s == front + [s[|s| - 1]];
      assert NoDuplicates(front);
      NoDuplicatesMultiplicity(front, x);
    }
  }

  /** Every entry before position `k` belongs to the prefix of length `k`. */
  lemma PrefixMembers<C>(s: seq<C>, k: int)
    requires 0 <= k <= |s|
    ensures forall j :: 0 <= j < k ==> s[j] in s[..k]
  {
    forall j | 0 <= j < k
      ensures s[j] in s[..k]
    {
      assert s[..k][j] == s[j];
    }
  }

  /** A value at two distinct positions has multiplicity at least two. */
  lemma TwoPositions<C>(s: seq<C>, i: int, j: int)
    requires 0 <= i < j < |s|
    ensures s[i] == s[j] ==> multiset(s)[s[i]] >= 2
  {
    assert s == s[..i] + [s[i]] + s[i + 1..j] + [s[j]] + s[j + 1..];
  }

  /** Reordering a duplicate-free sequence leaves it duplicate-free. */
  lemma PermutationKeepsNoDuplicates<C>(a: seq<C>, b: seq<C>)
    requires NoDuplicates(a) && multiset(a) == multiset(b)
    ensures NoDuplicates(b)
  {
    forall i, j | 0 <= i < j < |b|
      ensures b[i] != b[j]
    {
      NoDuplicatesMultiplicity(a, b[i]);
      TwoPositions(b, i, j);
    }
  }

  /** Reordering a sequence keeps its set of values. */
  lemma PermutationKeepsElements<C>(a: seq<C>, b: seq<C>)
    requires multiset(a) == multiset(b)
    ensures Elements(a) == Elements(b)
  {
    forall x
      ensures x in Elements(a) <==> x in Elements(b)
    {
      assert x in a <==> x in multiset(a);
      assert x in b <==> x in multiset(b);
    }
  }

  /** Two admissible pools of the same kept list are permutations of each
      other: the arbitrary order of `set` changes nothing but the order. */
  lemma PoolsArePermutations<C>(p1: seq<C>, p2: seq<C>, kept: seq<C>)
    requires IsPoolOf(p1, kept) && IsPoolOf(p2, kept)
    ensures multiset(p1) == multiset(p2)
    ensures |p1| == |p2| == |Elements(kept)|
  {
    forall x
      ensures multiset(p1)[x] == multiset(p2)[x]
    {
      NoDuplicatesMultiplicity(p1, x);
      NoDuplicatesMultiplicity(p2, x);
      assert x in p1 <==> x in Elements(p1);
      assert x in p2 <==> x in Elements(p2);
    }
    DistinctCount(p1);
    DistinctCount(p2);
  }

  /** Inserts `x` into the descending sequence `r` after every entry scoring
      strictly higher. */
  function Insert<C(==)>(x: C, r: seq<C>, m: map<C, real>): (r': seq<C>)
    requires x in m && Descending(r, m)
    ensures multiset(r') == multiset(r) + multiset{x}
    ensures forall k :: 0 <= k < |r'| ==> r'[k] == x || r'[k] in r
    ensures Descending(r', m)
  {
    if |r| == 0 then [x]
    else if m[x] >= m[r[0]] then [x] + r
    else
      var rest := Insert(x, r[1..], m);
      assert r == [r[0]] + r[1..];
      DescendingCons(r[0], rest, m);
      [r[0]] + rest
  }

  /** Prefixing an entry that scores at least as high as every entry keeps a
      sequence descending. */
  lemma DescendingCons<C>(y: C, rest: seq<C>, m: map<C, real>)
    requires y in m && Descending(rest, m)
    requires forall k :: 0 <= k < |rest| ==> m[rest[k]] <= m[y]
    ensures Descending([y] + rest, m)
  {
  }

  /** Sorts `pool` by score, highest first. */
  function SortDescending<C(==)>(pool: seq<C>, m: map<C, real>): (ranked: seq<C>)
    requires Scored(pool, m)
    ensures IsRankingOf(ranked, pool, m)
  {
    if |pool| == 0 then []
    else
      assert pool == [pool[0]] + pool[1..];
      Insert(pool[0], SortDescending(pool[1..], m), m)
  }

  /** Scores distribute over concatenation. */
  lemma ScoresOfConcat<C>(a: seq<C>, b: seq<C>, m: map<C, real>)
    requires Scored(a, m) && Scored(b, m)
    ensures Scored(a + b, m)
    ensures ScoresOf(a + b, m) == ScoresOf(a, m) + ScoresOf(b, m)
  {
  }

  /** Removing the first entry of `r1` and a matching entry of its
      permutation `r2` leaves permutations of each other. */
  lemma RemoveMatching<C>(r1: seq<C>, r2: seq<C>, k: int)
    requires multiset(r1) == multiset(r2)
    requires |r1| > 0 && 0 <= k < |r2| && r2[k] == r1[0]
    ensures multiset(r1[1..]) == multiset(r2[..k] + r2[k + 1..])
  {
    var x := r1[0];
    var rest2 := r2[..k] + r2[k + 1..];
    assert r1 == [x] + r1[1..];
    assert r2 == r2[..k] + [x] + r2[k + 1..];
    assert multiset(r2) == multiset(rest2) + multiset{x};
    assert multiset(r1) == multiset{x} + multiset(r1[1..]);
    forall y
      ensures multiset(r1[1..])[y] == multiset(rest2)[y]
    {
      assert multiset(r1)[y] == multiset{x}[y] + multiset(r1[1..])[y];
      assert multiset(r2)[y] == multiset(rest2)[y] + multiset{x}[y];
    }
  }

  /** Sequences that are permutations of each other have score sequences
      that are permutations of each other. */
  lemma {:induction false} PermutedScores<C>(r1: seq<C>, r2: seq<C>, m: map<C, real>)
    requires Scored(r1, m) && Scored(r2, m)
    requires multiset(r1) == multiset(r2)
    ensures multiset(ScoresOf(r1, m)) == multiset(ScoresOf(r2, m))
    decreases |r1|
  {
    if |r1| > 0 {
      var x := r1[0];
      assert x in multiset(r2);
      var k :| 0 <= k < |r2| && r2[k] == x;
      var front, back := r2[..k], r2[k + 1..];
      RemoveMatching(r1, r2, k);
      PermutedScores(r1[1..], front + back, m);
      assert r1 == [x] + r1[1..];
      ScoresOfConcat([x], r1[1..], m);
      assert r2 == front + ([x] + back);
      ScoresOfConcat([x], back, m);
      ScoresOfConcat(front, [x] + back, m);
      ScoresOfConcat(front, back, m);
      var sx, s1, sf, sb := ScoresOf([x], m), ScoresOf(r1[1..], m), ScoresOf(front, m), ScoresOf(back, m);
      assert multiset(ScoresOf(r1, m)) == multiset(sx) + multiset(s1);
      assert multiset(ScoresOf(r2, m)) == multiset(sf) + (multiset(sx) + multiset(sb));
      assert multiset(s1) == multiset(sf) + multiset(sb);
    }
  }

  /** A multiset of scores has exactly one non-increasing arrangement. */
  lemma {:induction false} SortedIsUnique(a: seq<real>, b: seq<real>)
    requires NonIncreasing(a) && NonIncreasing(b)
    requires multiset(a) == multiset(b)
    ensures a == b
    decreases |a|
  {
    assert |a| == |multiset(a)| == |multiset(b)| == |b|;
    if |a| > 0 {
      assert a[0] in multiset(b);
      assert b[0] in multiset(a);
      assert a[0] == b[0];
      assert a == [a[0]] + a[1..];
      assert b == [b[0]] + b[1..];
      assert multiset(a) == multiset{a[0]} + multiset(a[1..]);
      assert multiset(b) == multiset{b[0]} + multiset(b[1..]);
      forall y
        ensures multiset(a[1..])[y] == multiset(b[1..])[y]
      {
        assert multiset(a)[y] == multiset{a[0]}[y] + multiset(a[1..])[y];
        assert multiset(b)[y] == multiset{b[0]}[y] + multiset(b[1..])[y];
      }
      assert multiset(a[1..]) == multiset(b[1..]);
      SortedIsUnique(a[1..], b[1..]);
    }
  }

  /** Any two descending rankings of permuted pools carry the same scores at
      every rank, whatever order the pools had and however ties were broken. */
  lemma RankingScoresAgree<C>(r1: seq<C>, r2: seq<C>, m: map<C, real>)
    requires Descending(r1, m) && Descending(r2, m)
    requires multiset(r1) == multiset(r2)
    ensures |r1| == |r2|
    ensures ScoresOf(r1, m) == ScoresOf(r2, m)
  {
    assert |r1| == |multiset(r1)| == |multiset(r2)| == |r2|;
    PermutedScores(r1, r2, m);
    SortedIsUnique(ScoresOf(r1, m), ScoresOf(r2, m));
  }
}

=== FILE: wrappers.dfy ===
/** Failure-compatible result types used by the selector model. */
module Wrappers {

  /** A value that may be absent: a missing row of an optional batch. */
  datatype Option<+T> = None | Some(value: T) {

    /** The carried value, or `default` when absent. */
    function GetOr(default: T): T {
      match this
      case Some(v) => v
      case None => default
    }
  }

  /** Either a computed value or the error that the Python code would raise. */
  datatype Result<+T, +E> = Ok(value: T) | Err(error: E) {

    predicate IsFailure() {
      Err?
    }

    function PropagateFailure<U>(): Result<U, E>
      requires Err?
    {
      Err(error)
    }

    function Extract(): T
      requires Ok?
    {
      value
    }
  }
}
